=== FILE: README.md ===
# fluxx_maker in Dafny

A model of the pure parts of `fluxx_maker`, a batch tool that renders Fluxx
playing cards from a CSV table and tiles them onto printable letter-size pages.
The model covers four parts:

- **the filename sanitiser** `safe_filename` (`StringUtil`). It strips
  surrounding whitespace, lower-cases, turns spaces into `_`, and keeps only
  alphanumerics and the "special" characters (default `"._"`);
- **the description token split** `description.split("\\n")` (`TokenSplit`).
  It splits on the two-character token backslash-`n`, not on a line break;
- **the page tiler** `save_raster` (`Tiling`, `PageName`). It computes page
  size and gutters from the DPI by integer and floor division, then pastes
  cards row-major into a `rows` x `cols` grid, page after page. It saves the
  pages as `page_NN.png`;
- **the per-row decisions of `main`** (`Cards`):
  - the template registry lookup and skipping of unknown kinds;
  - the output name `<safe name>.png`;
  - the title origin for a wrapped title;
  - the goal branch: two or three icons at fixed offsets, with its assertion;
  - the non-goal branch: description text, then the card's own icon if found;
  - the run: rows are rendered in order, the first failure aborts, and the
    deck directory is handed to the tiler.

Images, fonts and drawing are not modelled as pixels. A card is the list of
operations applied to its template (`DrawText`, `PasteIcon`), in order. A page
is the list of `Placement`s pasted onto it. Word wrapping and the icon lookup
in the input directory are parameters (`Env`).

Four details of the code that the model keeps:

- The default `special` argument of `safe_filename` is `"._"`.
- A two-icon goal card pastes its second icon at `(190, v + 100)`, diagonally
  below the first.
- Ten cards on a 3 x 3 grid fill two pages, because nine cards fit on a page
  (`Tiling.TenCardsTwoPages`).
- A registered row whose safe name is empty or only dots fails when its card
  is saved, once any goal check has passed (`Cards.RenderRow`; the empty name
  on a non-goal row is `Cards.EmptyNameFails`). A goal row whose icons do not
  resolve fails earlier, at the goal assertion. PIL picks the format from the extension
  that `os.path.splitext` reports, and for `.png` or `..png` that extension is
  empty, because leading dots start a hidden name rather than an extension.

## Model

| member | source | states |
|---|---|---|
| `StringUtil.StripLeft` | lib/string_util.py:6 | `lstrip` returns a suffix of the input that is empty or starts with a non-whitespace character. Every character it removes is whitespace in Python's `isspace` sense. |
| `StringUtil.StripRight` | lib/string_util.py:6 | `rstrip` returns a prefix of the input that is empty or ends with a non-whitespace character. Every character it removes is whitespace. |
| `StringUtil.Strip` | lib/string_util.py:6 | `strip()` returns a slice of the input with only whitespace cut off on either side. The slice neither starts nor ends with whitespace. |
| `StringUtil.Lower` | lib/string_util.py:6 | `lower()` keeps the length and leaves no upper-case letter. Each upper-case letter becomes its lower-case letter, and every other character is unchanged. |
| `StringUtil.ReplaceSpaces` | lib/string_util.py:6 | `replace(" ", "_")` keeps the length and leaves no space. Each space becomes `_`, and every other character is unchanged. |
| `StringUtil.Prepared` | lib/string_util.py:6 | The string the filter runs over is no longer than the input and holds no space and no upper-case letter. |
| `StringUtil.KeepChars` | lib/string_util.py:7 | The filter's output is no longer than its input. Every kept character is alphanumeric or special, and occurs in the input. |
| `StringUtil.KeepCharsContents` | lib/string_util.py:7 | The filter keeps each allowed character exactly as often as the input has it. It drops every other character. The output is a subsequence of the input, so order is preserved. |
| `StringUtil.SafeFilename` | lib/string_util.py:4-7 | Every output character is an ASCII alphanumeric or special. No output character is a space or an upper-case letter. The output is a subsequence of `strip(s).lower().replace(" ", "_")` and is no longer than `s`. |
| `StringUtil.Idempotent` | lib/string_util.py:6-7 | Sanitising twice equals sanitising once, for any `special` that contains no whitespace. |
| `StringUtil.IdempotentDefault` | lib/string_util.py:4-7 | Idempotence holds with the default `special = "._"`. |
| `StringUtil.CaseInsensitive` | lib/string_util.py:6 | `safe_filename(lower(s)) == safe_filename(s)`. |
| `StringUtil.InteriorSpace` | lib/string_util.py:6-7 | An interior space between two stripped words becomes one `_` whenever `_` is special: the result is the two sanitised words joined by `_`. |
| `StringUtil.MyCardExample` | lib/string_util.py:4-7 | `safe_filename("My Card!") == "my_card"`. |
| `TokenSplit.Split` | fluxx_maker.py:126 | Splitting always yields at least one piece. No piece contains the token, and the first piece is a prefix of the description. |
| `TokenSplit.JoinSplit` | fluxx_maker.py:126 | Joining the pieces back with the token gives the description again. |
| `TokenSplit.SplitJoin` | fluxx_maker.py:140 | Splitting a token-join of token-free pieces gives back exactly those pieces. This is the other direction of the round trip. |
| `PageName.Padded` | fluxx_maker.py:72 | `{:02d}` has at least two digits, and exactly two for numbers below 100. Numbers below 10 get a leading `0`. |
| `PageName.PaddedValue` | fluxx_maker.py:72 | The padded digits read back as the page number. |
| `PageName.PageFileName` | fluxx_maker.py:72 | A page is saved as `page_`, then the padded page number, then `.png`. The padded part is exactly the `{:02d}` digits. |
| `PageName.PageFileNameInjective` | fluxx_maker.py:72 | Different page numbers give different file names, so no page overwrites another. |
| `PageName.TwoDigitPageName` | fluxx_maker.py:72 | Pages 1 to 99 are named with exactly two digits, tens then units. |
| `Tiling.PageWidth` | fluxx_maker.py:46 | `int(8.5 * dpi)` is `17 * dpi / 2` rounded down. |
| `Tiling.Gutter` | fluxx_maker.py:48-49 | The gutter is the floor quotient: `count + 1` gutters fit beside `count` cards, and `count + 1` gutters one pixel wider do not. |
| `Tiling.MakeLayout` | fluxx_maker.py:46-49 | The page is `int(8.5 * dpi)` wide and `11 * dpi` high. Each gutter is the floor quotient: `count + 1` gutters fit beside `count` cards, and `count + 1` gutters one pixel wider do not. The grid and card size are those given. |
| `Tiling.GuttersFit` | fluxx_maker.py:46-49 | If `cols * card_w <= page_w`, the gutter is non-negative and `cols * card_w + (cols + 1) * h_space <= page_w`. The same holds down the page with rows and heights. |
| `Tiling.PasteRow` | fluxx_maker.py:61-69 | The inner loop pastes the row's cards left to right at the closed-form positions. The cells after the last card stay empty. |
| `Tiling.PastePage` | fluxx_maker.py:56-70 | One pass of the outer loop fills a fresh page row by row with the next `min(remaining, rows * cols)` cards. |
| `Tiling.PastePages` | fluxx_maker.py:51-72 | Every card `0 .. n-1` is pasted exactly once, in listing order. Card `i` lands on page `i / (rows*cols) + 1`, in cell `i % (rows*cols)` taken row-major, at `x = h + c*(h + w)`, `y = v + r*(v + h_img)`. Pages `1 .. ceil(n / (rows*cols))` are saved, and the last page may be only partly filled. |
| `Tiling.SaveRaster` | fluxx_maker.py:35-72 | An empty listing fails when reading the first image. Unequal DPI fails the assertion. Otherwise the layout comes from the first image, the placements are the closed-form ones, and the saved files are `page_01.png`, `page_02.png`, … |
| `Tiling.PlacementOnPage` | fluxx_maker.py:46-70 | When the cards fit across and down the page, every pasted card lies wholly on its page. |
| `Tiling.PlacementsDisjoint` | fluxx_maker.py:59-70 | With non-negative gutters, two different cards on the same page never overlap. |
| `Tiling.EveryPageUsed` | fluxx_maker.py:54-72 | Every saved page receives at least its first card. |
| `Tiling.TenCardsTwoPages` | fluxx_maker.py:51-72 | Ten cards on a 3 x 3 grid fill two pages. Card 9 is the only card on page 2. |
| `Cards.RegisteredKinds` | fluxx_maker.py:85-93 | Exactly seven kinds are registered. On every template the title anchor lies above the description anchor. |
| `Cards.TitleY` | fluxx_maker.py:116 | A one-line title is drawn at the title anchor. A longer title starts above it, a whole number of 35-pixel steps higher. |
| `Cards.FirstMissing` | fluxx_maker.py:124-128 | No stem is reported exactly when every icon resolves. Otherwise the reported stem is one of the stems and does not resolve. |
| `Cards.GoalIcons` | fluxx_maker.py:122-135 | The goal branch succeeds exactly when the description splits into 2 or 3 pieces that all resolve. On success it pastes one 100-pixel icon per piece, in order, under the piece's safe name. It reports which conjunct of the assertion failed. |
| `Cards.GoalLayout` | fluxx_maker.py:129-135 | Only 2 or 3 icons have a layout; any other count is an error. The first icon sits at the description anchor. With two icons, the second is one icon square to the right and one below. With three icons, the second is one square to the right on the same line, and the third is one square below, centred under the first two. |
| `Cards.GoalIconsDisjoint` | fluxx_maker.py:129-135 | The goal icon squares never overlap. |
| `Cards.PngExtension` | fluxx_maker.py:150-151 | The extension of `<stem>.png`, computed as `os.path.splitext` does, is `.png`, except that it is empty when the stem is only dots. |
| `Cards.SaveCard` | fluxx_maker.py:150-151 | Saving a card succeeds exactly when its safe name is not only dots, and then it yields the card saved as `<safe name>.png`. Otherwise it fails with an unknown-extension error naming that file. |
| `Cards.RenderRow` | fluxx_maker.py:99-151 | A row with fewer than 3 cells fails to unpack. Otherwise the row is skipped exactly when its kind is not one of the seven registered kinds. A registered non-goal row yields a card exactly when its safe name is not only dots, and otherwise fails on the save. A goal row yields one exactly when its icons resolve and its safe name is not only dots. |
| `Cards.EmptyNameFails` | fluxx_maker.py:101-151 | A registered non-goal row with an empty name fails when it saves `.png`. |
| `Cards.CardHeader` | fluxx_maker.py:101-120 | A rendered card starts from `<kind>.png` and is saved as `safe_filename(name) + ".png"`. It first draws the title with its origin `(lines - 1)` steps of 35 pixels above the title anchor. |
| `Cards.GoalCard` | fluxx_maker.py:122-135 | A goal card's title is followed by its 2 or 3 icon pastes of 100 pixels, one per description piece, in order. |
| `Cards.PlainBody` | fluxx_maker.py:137-147 | The non-goal branch draws the description's pieces, each wrapped on its own, in body font at the description anchor. It then pastes the card's 200-pixel icon at the same anchor exactly when the directory holds one. |
| `Cards.PlainCard` | fluxx_maker.py:137-147 | Any other card draws its description at the description anchor, as the wrapped lines of its pieces, one piece after another. It pastes its own 200-pixel icon there exactly when the directory holds one under the card's safe name. |
| `Cards.SingleParagraph` | fluxx_maker.py:139-142 | A description without the token is wrapped as a single paragraph. |
| `Cards.Paragraphs` | fluxx_maker.py:139-142 | A description made of token-free paragraphs joined by the token draws each paragraph's wrapped lines in paragraph order. |
| `Cards.WrapAllAppend` | fluxx_maker.py:139-141 | Wrapping paragraph by paragraph distributes over concatenation of the paragraph lists. |
| `Cards.DescriptionLines` | fluxx_maker.py:139-141 | The `desc_lines +=` loop over the description's pieces ends with the pieces' wrapped lines, one piece after another, which are the lines the non-goal card draws. |
| `Cards.RenderRows` | fluxx_maker.py:99-151 | The run fails exactly when some row fails, and it reports the first failing row. Every row before that row rendered. |
| `Cards.CardsFromRows` | fluxx_maker.py:99-151 | Card `k` written by the run is the card of a row before the stop. |
| `Cards.CardRowsIncreasing` | fluxx_maker.py:99-151 | The cards are written in row order: their rows strictly increase. |
| `Cards.RowsWritten` | fluxx_maker.py:99-151 | Every row before the stop that renders a card has its card written. |
| `Cards.Deck` | fluxx_maker.py:150-151 | Every deck file holds a card that was saved, and that card's file name is the file's name. |
| `Cards.DeckKeys` | fluxx_maker.py:150-151 | The deck directory holds one file per distinct card file name. |
| `Cards.DeckLastWins` | fluxx_maker.py:150-151 | Each deck file holds the last card saved under its name. |
| `Cards.DeckHoldsLastRow` | fluxx_maker.py:99-151 | Each deck file holds the card of the last row before the stop that was saved under its name, so a later row overwrites an earlier one. |
| `Cards.SameStemOneFile` | fluxx_maker.py:150-151 | Two cards with the same safe name leave one file, holding the later card. |
| `Cards.Run` | fluxx_maker.py:95-153 | The deck is what the rows rendered. A failing row aborts before tiling, and the run reports the first failing row with that row's own error. A run that renders no card fails in the tiler on the empty listing. The DPI check never fails, because every card is saved at 150 x 150 DPI. On success, the layout is the 3 x 3 letter layout at 150 DPI. Deck file `i` of the listing is pasted once, at the closed-form position of card `i`. The pages are `page_01.png` … `page_NN.png`, with `NN = ceil(|deck| / 9)`. |

## Left out

- `csv_reader`: the rows arrive already split into trimmed cells. Python's `csv` module is not part of this model.
- `clear_directory` and every file or image open/save call: filesystem I/O. The deck directory is modelled as a map from file name to card.
- The order of the directory listing: the tiler sees `n` images. A placement's `card` is an index into the listing, whatever its order.
- PIL drawing, fonts, `Image.new` and `paste`: a paste is recorded only as its position, its box size and the icon's stem. Text is recorded as its position, lines and font.
- `textwrap.wrap`: the wrapped lines come from the `Env` parameters `wrapTitle` and `wrapBody`.
- `get_image` (a glob plus a file open): modelled only as the predicate `Env.hasIcon` on the sanitised stem.
- `resize` (float scaling with truncation and a width/height swap): an icon is recorded with the square it is resized into (100 or 200).
- The template-image-not-found failure in `main`: all seven template files are assumed to exist.
- lib/cli.py: `typer` command-line wiring. The `print` in `save_raster` is also left out, because it is console output only.
- Non-integral DPI: the DPI is a natural number, and `page_w = int(8.5 * dpi)` is `(17 * dpi) / 2`.
- The card size is taken from the first listed image (`Cards.Run` takes it as a parameter). The source does not check that all cards share it, and neither does the model.
- StringUtil.SafeFilename: `isalnum` and `lower` are modelled on ASCII only. Python keeps non-ASCII letters and digits and lower-cases them, but the model drops them and leaves other non-ASCII characters unchanged. Stripping uses Python's full `isspace` set.
- Tiling.PastePages: requires at least one row and one column. With zero rows or columns and a non-empty listing, the source never places a card and loops forever.
- Cards.GoalIcons: Python raises one `AssertionError` for both a missing icon and a wrong icon count. The model names which conjunct failed, checking a missing icon first, in the order of the `and`.

=== FILE: cards.dfy ===
/** The per-row card decisions of `main` in fluxx_maker.py and the run that
    feeds the rendered deck to the page tiler. Fonts, PIL drawing, word
    wrapping and the icon lookup in the input directory are abstract: a card
    is described by the operations applied to its template image, in order. */
module Cards {
  import opened Wrappers
  import StringUtil
  import TokenSplit
  import Tiling
  import PageName

  /** The template registry: kind -> (title anchor y, description anchor y). */
  const Templates: map<string, (int, int)> := map[
    "meta_rule" := (170, 250),
    "new_rule" := (270, 330),
    "creeper" := (240, 300),
    "keeper" := (240, 300),
    "goal" := (230, 300),
    "action" := (230, 290),
    "surprise" := (230, 290)
  ]

  /** Left edge of every text block and of the first icon. */
  const TextX := 90
  /** Vertical distance the title origin moves up per extra title line. */
  const TitleLineStep := 35
  /** Goal icons are resized to fit this square. */
  const GoalIconBox := 100
  /** A card's own icon is resized to fit this square. */
  const CardIconBox := 200
  /** Cards are saved with this DPI on both axes. */
  const CardDpi := 150
  /** The grid `main` asks the tiler for. */
  const GridRows := 3
  const GridCols := 3

  datatype Font = TitleFont | BodyFont

  /** One step applied to the template image. */
  datatype Op =
    | DrawText(x: int, y: int, lines: seq<string>, font: Font)  // black, lines joined by a line break
    | PasteIcon(x: int, y: int, box: nat, stem: string)         // the icon found under `stem`, fit into box x box

  /** A rendered card: the template it starts from, the file it is saved as,
      and what is drawn on it. */
  datatype Card = Card(template: string, fileName: string, ops: seq<Op>)

  /** The failures a row can raise. */
  datatype RowError =
    | TooFewColumns(count: nat)      // unpacking `columns[:3]` into three names
    | GoalIconMissing(stem: string)  // the `all(icons)` part of the goal assertion
    | GoalIconCount(count: nat)      // the `len(icons) in (2, 3)` part of the goal assertion
    | UnknownExtension(fileName: string)  // `image.save` finds no extension to pick a format by

  /** What the model takes as given: which icon stems the input directory
      holds, and `textwrap.wrap` at width 20 (titles) and 35 (descriptions). */
  datatype Env = Env(hasIcon: string -> bool, wrapTitle: string -> seq<string>, wrapBody: string -> seq<string>)

  function Stem(s: string): string {
    StringUtil.SafeFilename(s, StringUtil.DefaultSpecial)
  }

  /** The index of the last `.` in `name`, or -1 when it has none. */
  function LastDot(name: string): (d: int)
    ensures -1 <= d < |name|
    ensures d >= 0 ==> name[d] == '.' && forall j :: d < j < |name| ==> name[j] != '.'
    ensures d == -1 ==> forall j :: 0 <= j < |name| ==> name[j] != '.'
  {
    if name == [] then -1
    else if name[|name| - 1] == '.' then |name| - 1
    else LastDot(name[..|name| - 1])
  }

  /** `os.path.splitext(name)[1]` for a file name without directory part: the
      text from the last dot on, unless every character before that dot is a
      dot as well (a leading dot starts a hidden name, not an extension). */
  function Extension(name: string): string {
    var d := LastDot(name);
    if d >= 0 && exists i :: 0 <= i < d && name[i] != '.' then name[d..] else ""
  }

  /** The stem consists of dots only; the empty stem is one. */
  predicate OnlyDots(stem: string) {
    forall i :: 0 <= i < |stem| ==> stem[i] == '.'
  }

  /** A card saved as `<stem>.png` has extension `.png`, except when the
      stem is dots only: then it has no extension at all. */
  lemma PngExtension(stem: string)
    ensures Extension(stem + ".png") == (if OnlyDots(stem) then "" else ".png")
  {
    var name := stem + ".png";
    assert name[|stem|] == '.' && forall j :: |stem| < j < |name| ==> name[j] != '.';
    assert LastDot(name) == |stem|;
    if !OnlyDots(stem) {
      var i :| 0 <= i < |stem| && stem[i] != '.';
      assert name[i] != '.';
      assert name[|stem|..] == ".png";
    } else {
      assert forall i :: 0 <= i < |stem| ==> name[i] == '.';
    }
  }

  /** `image.save(deck_dir / f"{safe_name}.png", ...)`: PIL picks the format
      from the file name's extension and raises when there is none. */
  function SaveCard(kind: string, safeName: string, ops: seq<Op>): (r: Result<Option<Card>, RowError>)
    ensures r.Success? <==> !OnlyDots(safeName)
    ensures r.Success? ==> r.value == Some(Card(kind + ".png", safeName + ".png", ops))
    ensures r.Failure? ==> r.error == UnknownExtension(safeName + ".png")
  {
    PngExtension(safeName);
    if Extension(safeName + ".png") == "" then Failure(UnknownExtension(safeName + ".png"))
    else Success(Some(Card(kind + ".png", safeName + ".png", ops)))
  }

  /** The registry holds exactly the seven card kinds, and on every template
      the title anchor lies above the description anchor. */
  lemma RegisteredKinds()
    ensures Templates.Keys == {"meta_rule", "new_rule", "creeper", "keeper", "goal", "action", "surprise"}
    ensures forall kind :: kind in Templates ==> Templates[kind].0 < Templates[kind].1
  {
  }

  /** The title's origin for a title wrapped into `lines` lines: on the title
      anchor for a one-line title, a whole number of steps above it for a
      longer one. */
  function TitleY(titleV: int, lines: nat): (y: int)
    ensures lines == 1 <==> y == titleV
    ensures lines > 1 <==> y < titleV
    ensures (titleV - y) % TitleLineStep == 0
  {
    var y := titleV - (lines - 1) * TitleLineStep;
    assert titleV - y == (lines - 1) * TitleLineStep;
    y
  }

  /** The sanitised name of each piece. */
  function Stems(pieces: seq<string>): (r: seq<string>)
    ensures |r| == |pieces| && forall i :: 0 <= i < |pieces| ==> r[i] == Stem(pieces[i])
  {
    MapStrings(Stem, pieces)
  }

  /** `f` applied to each string, in order. */
  function MapStrings(f: string -> string, xs: seq<string>): (r: seq<string>)
    ensures |r| == |xs| && forall i :: 0 <= i < |xs| ==> r[i] == f(xs[i])
  {
    if xs == [] then [] else [f(xs[0])] + MapStrings(f, xs[1..])
  }

  /** The first stem the directory does not hold, if any. */
  function FirstMissing(stems: seq<string>, hasIcon: string -> bool): (r: Option<string>)
    ensures r.None? <==> forall i :: 0 <= i < |stems| ==> hasIcon(stems[i])
    ensures r.Some? ==> r.value in stems && !hasIcon(r.value)
  {
    if stems == [] then None
    else if !hasIcon(stems[0]) then Some(stems[0])
    else
      var rest := FirstMissing(stems[1..], hasIcon);
      assert forall i :: 1 <= i < |stems| ==> stems[i] == stems[1..][i - 1];
      rest
  }

  /** The goal branch: each piece of the description names a keeper icon.
      All pieces must resolve and there must be two or three of them; two
      icons go at (90, v) and (190, v + 100) -- the second diagonally below
      the first, not beside it -- and three at (90, v), (190, v) and
      (140, v + 100). */
  function GoalIcons(pieces: seq<string>, hasIcon: string -> bool, descV: int): (r: Result<seq<Op>, RowError>)
    ensures r.Success? <==> (|pieces| == 2 || |pieces| == 3) && forall i :: 0 <= i < |pieces| ==> hasIcon(Stem(pieces[i]))
    ensures r.Failure? && r.error.GoalIconMissing? ==>
      exists i :: 0 <= i < |pieces| && r.error.stem == Stem(pieces[i]) && !hasIcon(Stem(pieces[i]))
    ensures r.Failure? && r.error.GoalIconCount? ==>
      r.error.count == |pieces| && forall i :: 0 <= i < |pieces| ==> hasIcon(Stem(pieces[i]))
    ensures r.Failure? ==> r.error.GoalIconMissing? || r.error.GoalIconCount?
    ensures r.Success? ==> |r.value| == |pieces|
    ensures r.Success? ==> forall i :: 0 <= i < |pieces| ==>
      r.value[i] == PasteIcon(r.value[i].x, r.value[i].y, GoalIconBox, Stem(pieces[i]))
  {
    var stems := Stems(pieces);
    match FirstMissing(stems, hasIcon)
    case Some(stem) =>
      assert exists i :: 0 <= i < |pieces| && stems[i] == stem;
      Failure(GoalIconMissing(stem))
    case None =>
      assert forall i :: 0 <= i < |pieces| ==> hasIcon(stems[i]);
      GoalLayout(stems, descV)
  }

  /** The fixed paste offsets of two or three goal icons below the anchor `descV`. */
  function GoalLayout(stems: seq<string>, descV: int): (r: Result<seq<Op>, RowError>)
    ensures r.Success? <==> |stems| == 2 || |stems| == 3
    ensures r.Failure? ==> r.error == GoalIconCount(|stems|)
    ensures r.Success? ==> |r.value| == |stems|
    ensures r.Success? ==>
      forall i :: 0 <= i < |stems| ==> r.value[i] == PasteIcon(r.value[i].x, r.value[i].y, GoalIconBox, stems[i])
    ensures r.Success? ==> r.value[0].x == TextX && r.value[0].y == descV
    ensures r.Success? && |stems| == 2 ==>
      var ops := r.value;
      ops[1].x == ops[0].x + GoalIconBox && ops[1].y == ops[0].y + GoalIconBox
    ensures r.Success? && |stems| == 3 ==>
      var ops := r.value;
      && ops[1].y == ops[0].y && ops[1].x == ops[0].x + GoalIconBox
      && ops[2].y == ops[0].y + GoalIconBox
      && 2 * ops[2].x + GoalIconBox == ops[0].x + ops[1].x + GoalIconBox
  {
    if |stems| == 2 then
      Success([PasteIcon(TextX, descV, GoalIconBox, stems[0]),
               PasteIcon(TextX + 100, descV + 100, GoalIconBox, stems[1])])
    else if |stems| == 3 then
      Success([PasteIcon(TextX, descV, GoalIconBox, stems[0]),
               PasteIcon(TextX + 100, descV, GoalIconBox, stems[1]),
               PasteIcon(TextX + 50, descV + 100, GoalIconBox, stems[2])])
    else
      Failure(GoalIconCount(|stems|))
  }

  /** The squares of two icon pastes intersect. */
  predicate Overlap(a: Op, b: Op)
    requires a.PasteIcon? && b.PasteIcon?
  {
    a.x < b.x + b.box && b.x < a.x + a.box && a.y < b.y + b.box && b.y < a.y + a.box
  }

  /** The hand-tuned goal offsets keep the icon squares apart: no two goal
      icons overlap. */
  lemma GoalIconsDisjoint(stems: seq<string>, descV: int)
    requires GoalLayout(stems, descV).Success?
    ensures var ops := GoalLayout(stems, descV).value;
      forall i, j :: 0 <= i < j < |ops| ==> !Overlap(ops[i], ops[j])
  {
  }

  /** The description paragraphs, each wrapped on its own, lines concatenated. */
  function WrapAll(paragraphs: seq<string>, wrap: string -> seq<string>): seq<string> {
    if paragraphs == [] then [] else wrap(paragraphs[0]) + WrapAll(paragraphs[1..], wrap)
  }

  /** Wrapping paragraph by paragraph distributes over concatenation. */
  lemma {:induction false} WrapAllAppend(a: seq<string>, b: seq<string>, wrap: string -> seq<string>)
    ensures WrapAll(a + b, wrap) == WrapAll(a, wrap) + WrapAll(b, wrap)
  {
    if a != [] {
      assert (a + b)[1..] == a[1..] + b;
      WrapAllAppend(a[1..], b, wrap);
    } else {
      assert a + b == b;
    }
  }

  /** The non-goal branch: the description text block at the description
      anchor, then the card's own icon, when the directory has one, pasted at
      the same anchor (on top of the text). A missing icon is not an error. */
  function PlainBody(safeName: string, description: string, env: Env, descV: int): (ops: seq<Op>)
    ensures 1 <= |ops| <= 2
    ensures ops[0].DrawText? && ops[0].x == TextX && ops[0].y == descV && ops[0].font == BodyFont
    ensures ops[0].lines == WrapAll(TokenSplit.Split(description), env.wrapBody)
    ensures |ops| == 2 <==> env.hasIcon(safeName)
    ensures |ops| == 2 ==> ops[1] == PasteIcon(TextX, descV, CardIconBox, safeName)
  {
    var text := DrawText(TextX, descV, WrapAll(TokenSplit.Split(description), env.wrapBody), BodyFont);
    if env.hasIcon(safeName) then [text, PasteIcon(TextX, descV, CardIconBox, safeName)] else [text]
  }

  /** One row of the input table (`type_, name, description = columns[:3]`
      and the rest of the loop body). A row with fewer than three cells fails
      to unpack; otherwise a row is skipped exactly when its kind is not one
      of the seven registered kinds. A registered row renders exactly when
      its goal icons (if it is a goal) resolve and its safe name is not dots
      only; a dots-only safe name fails when the card is saved. */
  function RenderRow(columns: seq<string>, env: Env): (r: Result<Option<Card>, RowError>)
    ensures |columns| < 3 <==> r == Failure(TooFewColumns(|columns|))
    ensures |columns| >= 3 ==> (r == Success(None) <==> columns[0] !in Templates)
    ensures |columns| >= 3 && columns[0] in Templates && columns[0] != "goal" ==>
      (r.Success? <==> !OnlyDots(Stem(columns[1])))
      && (r.Failure? ==> r.error == UnknownExtension(Stem(columns[1]) + ".png"))
    ensures |columns| >= 3 && columns[0] == "goal" ==>
      (r.Success? <==> GoalIcons(TokenSplit.Split(columns[2]), env.hasIcon, Templates["goal"].1).Success?
                       && !OnlyDots(Stem(columns[1])))
    ensures r.Failure? && r.error.UnknownExtension? ==>
      |columns| >= 3 && columns[0] in Templates && OnlyDots(Stem(columns[1]))
      && r.error.fileName == Stem(columns[1]) + ".png"
  {
    if |columns| < 3 then Failure(TooFewColumns(|columns|))
    else
      var kind, name, description := columns[0], columns[1], columns[2];
      var safeName := Stem(name);
      if kind !in Templates then Success(None)
      else
        var (titleV, descV) := Templates[kind];
        var lines := env.wrapTitle(name);
        var title := DrawText(TextX, TitleY(titleV, |lines|), lines, TitleFont);
        if kind == "goal" then
          var icons :- GoalIcons(TokenSplit.Split(description), env.hasIcon, descV);
          SaveCard(kind, safeName, [title] + icons)
        else
          SaveCard(kind, safeName, [title] + PlainBody(safeName, description, env, descV))
  }

  /** Every rendered card starts from `<kind>.png`, is saved as
      `<safe name>.png`, and first draws the title with its origin
      `lines - 1` steps of 35 pixels above the kind's title anchor. */
  lemma CardHeader(columns: seq<string>, env: Env)
    requires RenderRow(columns, env).Success? && RenderRow(columns, env).value.Some?
    ensures |columns| >= 3 && columns[0] in Templates
    ensures var card := RenderRow(columns, env).value.value;
      var lines := env.wrapTitle(columns[1]);
      && card.template == columns[0] + ".png"
      && card.fileName == Stem(columns[1]) + ".png"
      && |card.ops| >= 2
      && card.ops[0] == DrawText(TextX, card.ops[0].y, lines, TitleFont)
      && card.ops[0].y + (|lines| - 1) * TitleLineStep == Templates[columns[0]].0
  {
  }

  /** A goal card pastes its two or three 100-pixel icons after the title,
      in description order. */
  lemma GoalCard(columns: seq<string>, env: Env)
    requires RenderRow(columns, env).Success? && RenderRow(columns, env).value.Some?
    requires columns[0] == "goal"
    ensures var card := RenderRow(columns, env).value.value;
      var pieces := TokenSplit.Split(columns[2]);
      && |card.ops| == |pieces| + 1 && 2 <= |pieces| <= 3
      && forall k :: 1 <= k < |card.ops| ==>
        card.ops[k].PasteIcon? && card.ops[k].box == GoalIconBox && card.ops[k].stem == Stem(pieces[k - 1])
  {
    var card := RenderRow(columns, env).value.value;
    var icons := GoalOps(columns, env);
    assert forall k :: 1 <= k < |card.ops| ==> card.ops[k] == icons[k - 1];
  }

  /** The operations after a goal card's title are those of its goal branch. */
  lemma GoalOps(columns: seq<string>, env: Env) returns (icons: seq<Op>)
    requires RenderRow(columns, env).Success? && RenderRow(columns, env).value.Some?
    requires columns[0] == "goal"
    ensures GoalIcons(TokenSplit.Split(columns[2]), env.hasIcon, Templates["goal"].1) == Success(icons)
    ensures RenderRow(columns, env).value.value.ops[1..] == icons
  {
    assert |columns| >= 3 && columns[0] in Templates;
    icons := GoalIcons(TokenSplit.Split(columns[2]), env.hasIcon, Templates["goal"].1).value;
  }

  /** Any other card draws its description, each token-separated piece
      wrapped on its own, at the description anchor, and pastes its own
      200-pixel icon over it exactly when the directory holds one under the
      card's safe name. */
  lemma PlainCard(columns: seq<string>, env: Env)
    requires RenderRow(columns, env).Success? && RenderRow(columns, env).value.Some?
    requires columns[0] != "goal"
    ensures var card := RenderRow(columns, env).value.value;
      var descV := Templates[columns[0]].1;
      && card.ops[1].DrawText? && card.ops[1].x == TextX && card.ops[1].y == descV && card.ops[1].font == BodyFont
      && card.ops[1].lines == WrapAll(TokenSplit.Split(columns[2]), env.wrapBody)
      && (|card.ops| == 3 <==> env.hasIcon(Stem(columns[1])))
      && (|card.ops| == 3 ==> card.ops[2] == PasteIcon(TextX, descV, CardIconBox, Stem(columns[1])))
  {
  }

  /** The accumulation `desc_lines += textwrap.wrap(desc_line, width=35)`
      over the description's pieces yields the lines `PlainBody` draws. */
  method DescriptionLines(description: string, wrap: string -> seq<string>) returns (lines: seq<string>)
    ensures lines == WrapAll(TokenSplit.Split(description), wrap)
  {
    var pieces := TokenSplit.Split(description);
    lines := [];
    var i := 0;
    while i < |pieces|
      invariant 0 <= i <= |pieces|
      invariant lines == WrapAll(pieces[..i], wrap)
    {
      WrapAllAppend(pieces[..i], [pieces[i]], wrap);
      assert pieces[..i + 1] == pieces[..i] + [pieces[i]];
      assert WrapAll([pieces[i]], wrap) == wrap(pieces[i]) + WrapAll([], wrap);
      lines := lines + wrap(pieces[i]);
      i := i + 1;
    }
    assert pieces[..|pieces|] == pieces;
  }

  /** A row whose name sanitises to nothing (here the empty name) cannot be
      saved: the file `.png` has no extension. */
  lemma EmptyNameFails(kind: string, description: string, env: Env)
    requires kind in Templates && kind != "goal"
    ensures RenderRow([kind, "", description], env) == Failure(UnknownExtension(".png"))
  {
    assert |Stem("")| == 0;
    assert OnlyDots(Stem(""));
    var r := RenderRow([kind, "", description], env);
    assert r.Failure?;
    assert Stem("") + ".png" == ".png";
  }

  /** A description without the token is wrapped as one paragraph. */
  lemma SingleParagraph(safeName: string, description: string, env: Env, descV: int)
    requires TokenSplit.TokenFree(description)
    ensures PlainBody(safeName, description, env, descV)[0]
         == DrawText(TextX, descV, env.wrapBody(description), BodyFont)
  {
    TokenSplit.SplitTokenFree(description);
    assert WrapAll([description], env.wrapBody) == env.wrapBody(description) + WrapAll([], env.wrapBody);
  }

  /** A description made of token-free paragraphs joined by the token draws
      the lines of each paragraph wrapped on its own, paragraph after
      paragraph. */
  lemma Paragraphs(safeName: string, paragraphs: seq<string>, env: Env, descV: int)
    requires |paragraphs| >= 1
    requires forall k :: 0 <= k < |paragraphs| ==> TokenSplit.TokenFree(paragraphs[k])
    ensures PlainBody(safeName, TokenSplit.Join(paragraphs), env, descV)[0].lines
         == WrapAll(paragraphs, env.wrapBody)
    ensures |paragraphs| >= 2 ==>
      PlainBody(safeName, TokenSplit.Join(paragraphs), env, descV)[0].lines
      == env.wrapBody(paragraphs[0]) + WrapAll(paragraphs[1..], env.wrapBody)
  {
    TokenSplit.SplitJoin(paragraphs);
  }

  // ---------------------------------------------------------------------
  // The whole run

  datatype RowFailure = RowFailure(row: nat, error: RowError)

  /** The cards written, in row order, and the failure that stopped the run. */
  datatype Rendered = Rendered(cards: seq<Card>, failure: Option<RowFailure>)

  /** Shifts a failure found in `rows[1..]` to its index in `rows`. */
  function Later(f: Option<RowFailure>): Option<RowFailure> {
    if f.Some? then Some(RowFailure(f.value.row + 1, f.value.error)) else None
  }

  /** How one row is rendered. */
  type Renderer<!T> = T -> Result<Option<Card>, RowError>

  /** The `for columns in reader` loop: rows are rendered in order; the first
      failing row aborts the loop, and the cards written before it stay. */
  function RenderRows<T>(rows: seq<T>, render: Renderer<T>): (r: Rendered)
    ensures r.failure.None? <==> forall i :: 0 <= i < |rows| ==> render(rows[i]).Success?
    ensures r.failure.Some? ==>
      var f := r.failure.value;
      f.row < |rows| && render(rows[f.row]) == Failure(f.error)
      && forall i :: 0 <= i < f.row ==> render(rows[i]).Success?
    ensures |r.cards| <= |rows|
  {
    if rows == [] then Rendered([], None)
    else
      var rest := RenderRows(rows[1..], render);
      assert forall i :: 1 <= i < |rows| ==> rows[i] == rows[1..][i - 1];
      match render(rows[0])
      case Failure(e) => Rendered([], Some(RowFailure(0, e)))
      case Success(None) => Rendered(rest.cards, Later(rest.failure))
      case Success(Some(card)) => Rendered([card] + rest.cards, Later(rest.failure))
  }

  /** The rows the run gets through before it stops. */
  function Stop<T>(rows: seq<T>, render: Renderer<T>): nat {
    var f := RenderRows(rows, render).failure;
    if f.Some? then f.value.row else |rows|
  }

  /** Each index moved one row further down. */
  function Shift(idx: seq<nat>): (r: seq<nat>)
    ensures |r| == |idx| && forall k :: 0 <= k < |idx| ==> r[k] == idx[k] + 1
  {
    seq(|idx|, k requires 0 <= k < |idx| => idx[k] + 1)
  }

  /** The row each written card comes from. */
  function CardRows<T>(rows: seq<T>, render: Renderer<T>): seq<nat> {
    if rows == [] then []
    else
      match render(rows[0])
      case Failure(_) => []
      case Success(None) => Shift(CardRows(rows[1..], render))
      case Success(Some(_)) => [0] + Shift(CardRows(rows[1..], render))
  }

  /** One step of the row loop: a row that renders moves the stop one row
      further and puts its card, if any, in front of the later rows' cards. */
  lemma RenderStep<T>(rows: seq<T>, render: Renderer<T>)
    requires rows != [] && render(rows[0]).Success?
    ensures Stop(rows, render) == Stop(rows[1..], render) + 1
    ensures render(rows[0]).value.None? ==>
      RenderRows(rows, render).cards == RenderRows(rows[1..], render).cards
      && CardRows(rows, render) == Shift(CardRows(rows[1..], render))
    ensures render(rows[0]).value.Some? ==>
      RenderRows(rows, render).cards == [render(rows[0]).value.value] + RenderRows(rows[1..], render).cards
      && CardRows(rows, render) == [0] + Shift(CardRows(rows[1..], render))
  {
  }

  /** Card `k` of `cards` is the card of row `idx[k]`, a row before `stop`. */
  predicate FromRows<T>(rows: seq<T>, render: Renderer<T>, stop: nat, idx: seq<nat>, cards: seq<Card>) {
    && |idx| == |cards|
    && forall k :: 0 <= k < |idx| ==>
      idx[k] < stop && idx[k] < |rows| && render(rows[idx[k]]) == Success(Some(cards[k]))
  }

  /** A first row without a card moves every card's row one further down. */
  lemma FromRowsSkip<T>(rows: seq<T>, render: Renderer<T>, stop: nat, tail: seq<nat>, cards: seq<Card>)
    requires rows != [] && stop >= 1
    requires FromRows(rows[1..], render, stop - 1, tail, cards)
    ensures FromRows(rows, render, stop, Shift(tail), cards)
  {
    var idx := Shift(tail);
    forall k | 0 <= k < |idx|
      ensures idx[k] < stop && idx[k] < |rows| && render(rows[idx[k]]) == Success(Some(cards[k]))
    {
      assert rows[idx[k]] == rows[1..][tail[k]];
    }
  }

  /** A first row with card `card` puts it in front. */
  lemma FromRowsCons<T>(rows: seq<T>, render: Renderer<T>, stop: nat, tail: seq<nat>, cards: seq<Card>, card: Card)
    requires rows != [] && stop >= 1 && render(rows[0]) == Success(Some(card))
    requires FromRows(rows[1..], render, stop - 1, tail, cards)
    ensures FromRows(rows, render, stop, [0] + Shift(tail), [card] + cards)
  {
    var idx := [0] + Shift(tail);
    var all := [card] + cards;
    forall k | 0 <= k < |idx|
      ensures idx[k] < stop && idx[k] < |rows| && render(rows[idx[k]]) == Success(Some(all[k]))
    {
      if k > 0 {
        assert idx[k] == tail[k - 1] + 1 && all[k] == cards[k - 1];
        assert rows[idx[k]] == rows[1..][tail[k - 1]];
      }
    }
  }

  /** Card `k` of the run is the card of row `CardRows(..)[k]`, a row before
      the stop. */
  lemma {:induction false} CardsFromRows<T>(rows: seq<T>, render: Renderer<T>)
    ensures FromRows(rows, render, Stop(rows, render), CardRows(rows, render), RenderRows(rows, render).cards)
  {
    if rows != [] && render(rows[0]).Success? {
      CardsFromRows(rows[1..], render);
      RenderStep(rows, render);
      var stop := Stop(rows, render);
      var tail := CardRows(rows[1..], render);
      var rest := RenderRows(rows[1..], render).cards;
      if render(rows[0]).value.None? {
        FromRowsSkip(rows, render, stop, tail, rest);
      } else {
        FromRowsCons(rows, render, stop, tail, rest, render(rows[0]).value.value);
      }
    }
  }

  predicate Increasing(idx: seq<nat>) {
    forall k, m :: 0 <= k < m < |idx| ==> idx[k] < idx[m]
  }

  /** Every row before `stop` that renders a card is among `idx`. */
  predicate Complete<T>(rows: seq<T>, render: Renderer<T>, stop: nat, idx: seq<nat>) {
    forall i :: 0 <= i < stop && i < |rows| && render(rows[i]).Success? && render(rows[i]).value.Some? ==> i in idx
  }

  /** The cards are written in row order. */
  lemma {:induction false} CardRowsIncreasing<T>(rows: seq<T>, render: Renderer<T>)
    ensures Increasing(CardRows(rows, render))
  {
    if rows != [] && render(rows[0]).Success? {
      CardRowsIncreasing(rows[1..], render);
      RenderStep(rows, render);
      var tail := CardRows(rows[1..], render);
      if render(rows[0]).value.Some? {
        var idx := CardRows(rows, render);
        forall k, m | 0 <= k < m < |idx|
          ensures idx[k] < idx[m]
        {
          if k > 0 {
            assert idx[k] == tail[k - 1] + 1 && idx[m] == tail[m - 1] + 1;
          }
        }
      }
    }
  }

  /** Every row before the stop that renders a card has its card written. */
  lemma {:induction false} RowsWritten<T>(rows: seq<T>, render: Renderer<T>)
    ensures Complete(rows, render, Stop(rows, render), CardRows(rows, render))
  {
    if rows != [] && render(rows[0]).Success? {
      RowsWritten(rows[1..], render);
      RenderStep(rows, render);
      var idx := CardRows(rows, render);
      var tail := CardRows(rows[1..], render);
      forall i | 0 <= i < Stop(rows, render) && i < |rows| && render(rows[i]).Success? && render(rows[i]).value.Some?
        ensures i in idx
      {
        if i == 0 {
          assert idx[0] == 0;
        } else {
          assert rows[1..][i - 1] == rows[i];
          assert i - 1 in tail;
          var k :| 0 <= k < |tail| && tail[k] == i - 1;
          if render(rows[0]).value.None? {
            assert idx[k] == i;
          } else {
            assert idx[k + 1] == i;
          }
        }
      }
    }
  }

  /** The deck directory of a run: each file holds the card of the last row
      before the stop that was saved under its name, so a later row
      overwrites an earlier one. */
  lemma DeckHoldsLastRow<T>(rows: seq<T>, render: Renderer<T>)
    ensures var deck := Deck(RenderRows(rows, render).cards);
      forall name :: name in deck ==> exists i :: SavedLastBy(rows, render, Stop(rows, render), i, deck[name])
  {
    var cards := RenderRows(rows, render).cards;
    var deck := Deck(cards);
    var stop := Stop(rows, render);
    var idx := CardRows(rows, render);
    CardsFromRows(rows, render);
    CardRowsIncreasing(rows, render);
    RowsWritten(rows, render);
    DeckLastWins(cards);
    forall name | name in deck
      ensures exists i :: SavedLastBy(rows, render, stop, i, deck[name])
    {
      var k :| LastSaved(cards, k, name) && cards[k] == deck[name];
      LaterRowKept(rows, render, stop, idx, cards, k, name);
      assert SavedLastBy(rows, render, stop, idx[k], deck[name]);
    }
  }

  /** Row `i`, before `stop`, renders `card`, and no later row before `stop`
      is saved under the same file name. */
  predicate SavedLastBy<T>(rows: seq<T>, render: Renderer<T>, stop: nat, i: int, card: Card) {
    0 <= i < stop && i < |rows| && render(rows[i]) == Success(Some(card))
    && LastWith(rows, render, stop, i, card.fileName)
  }

  /** The step of `DeckHoldsLastRow` for one file name: when card `k` is the
      last one saved under `name`, no rendered row after its row is. */
  lemma LaterRowKept<T>(rows: seq<T>, render: Renderer<T>, stop: nat, idx: seq<nat>, cards: seq<Card>, k: nat, name: string)
    requires FromRows(rows, render, stop, idx, cards) && Increasing(idx) && Complete(rows, render, stop, idx)
    requires LastSaved(cards, k, name)
    ensures LastWith(rows, render, stop, idx[k], name)
  {
    forall j | idx[k] < j < stop && j < |rows| && render(rows[j]).Success? && render(rows[j]).value.Some?
      ensures render(rows[j]).value.value.fileName != name
    {
      assert j in idx;
      var m :| 0 <= m < |idx| && idx[m] == j;
      assert render(rows[j]) == Success(Some(cards[m]));
    }
  }

  /** No rendered row after row `i` and before `stop` is saved under `name`. */
  predicate LastWith<T>(rows: seq<T>, render: Renderer<T>, stop: nat, i: nat, name: string) {
    forall j :: i < j < stop && j < |rows| && render(rows[j]).Success? && render(rows[j]).value.Some? ==>
      render(rows[j]).value.value.fileName != name
  }

  /** The deck directory after the cards are saved in order. */
  function Deck(cards: seq<Card>): (deck: map<string, Card>)
    ensures forall name :: name in deck ==> deck[name].fileName == name && deck[name] in cards
  {
    if cards == [] then map[]
    else Deck(cards[..|cards| - 1])[cards[|cards| - 1].fileName := cards[|cards| - 1]]
  }

  /** The file names a sequence of cards is saved under. */
  function FileNames(cards: seq<Card>): set<string> {
    set k | 0 <= k < |cards| :: cards[k].fileName
  }

  /** The deck holds one file per distinct file name. */
  lemma {:induction false} DeckKeys(cards: seq<Card>)
    ensures Deck(cards).Keys == FileNames(cards)
  {
    if cards != [] {
      var init := cards[..|cards| - 1];
      var last := cards[|cards| - 1];
      DeckKeys(init);
      forall x
        ensures x in FileNames(cards) <==> x in FileNames(init) || x == last.fileName
      {
        if x in FileNames(cards) {
          var k :| 0 <= k < |cards| && cards[k].fileName == x;
          if k < |init| {
            assert init[k].fileName == x;
          }
        }
        if x in FileNames(init) {
          var k :| 0 <= k < |init| && init[k].fileName == x;
          assert cards[k].fileName == x;
        }
      }
    }
  }

  /** A later card with the same file name overwrites an earlier one: each
      file holds the last card saved under its name. */
  lemma {:induction false} DeckLastWins(cards: seq<Card>)
    ensures forall name :: name in Deck(cards) ==>
      exists k :: LastSaved(cards, k, name) && cards[k] == Deck(cards)[name]
  {
    if cards != [] {
      var init := cards[..|cards| - 1];
      var last := cards[|cards| - 1];
      DeckLastWins(init);
      var d := Deck(cards);
      assert d == Deck(init)[last.fileName := last];
      assert cards == init + [last];
      forall name | name in d
        ensures exists k :: LastSaved(cards, k, name) && cards[k] == d[name]
      {
        if name == last.fileName {
          assert LastSaved(cards, |cards| - 1, name);
        } else {
          var k :| LastSaved(init, k, name) && init[k] == Deck(init)[name];
          LastSavedExtend(init, last, k, name);
        }
      }
    }
  }

  /** A card saved after the last one under `name` but under another name
      leaves it the last. */
  lemma LastSavedExtend(init: seq<Card>, last: Card, k: int, name: string)
    requires LastSaved(init, k, name) && last.fileName != name
    ensures LastSaved(init + [last], k, name) && (init + [last])[k] == init[k]
  {
  }

  /** Card `k` is saved under `name`, and no later card is. */
  predicate LastSaved(cards: seq<Card>, k: int, name: string) {
    0 <= k < |cards| && cards[k].fileName == name && forall m :: k < m < |cards| ==> cards[m].fileName != name
  }

  /** Two rows whose names sanitise alike produce one file: the later card. */
  lemma SameStemOneFile(a: Card, b: Card)
    requires a.fileName == b.fileName
    ensures |Deck([a, b])| == 1 && Deck([a, b])[b.fileName] == b
  {
    assert [a, b][..1] == [a];
    assert [a][..0] == [];
    DeckKeys([a, b]);
    assert FileNames([a, b]) == {a.fileName};
  }

  /** `RenderRow` with the environment fixed. */
  function RowRenderer(env: Env): Renderer<seq<string>> {
    columns => RenderRow(columns, env)
  }

  datatype RunFailure =
    | RowFailed(row: nat, error: RowError)
    | TilingFailed(cause: Tiling.TileError)

  /** What a run leaves behind: the deck directory, and either the pages or
      the failure that ended the run. */
  datatype Outcome = Outcome(deck: map<string, Card>, result: Result<Tiling.Raster, RunFailure>)

  /** `main` after the deck directory is cleared: render every row, then tile
      the deck directory 3 x 3 per page. The listing handed to the tiler is
      the deck's file names in some order; only its length matters to the
      layout. The card size is that of the first listed card. */
  method Run(rows: seq<seq<string>>, env: Env, cardW: nat, cardH: nat) returns (out: Outcome)
    ensures out.deck == Deck(RenderRows(rows, RowRenderer(env)).cards)
    ensures (out.result.Failure? && out.result.error.RowFailed?)
        <==> exists i :: 0 <= i < |rows| && RowRenderer(env)(rows[i]).Failure?
    ensures out.result.Failure? && out.result.error.RowFailed? ==>
      var f := out.result.error;
      && f.row < |rows|
      && RowRenderer(env)(rows[f.row]) == Failure(f.error)
      && forall i :: 0 <= i < f.row ==> RowRenderer(env)(rows[i]).Success?
    ensures out.result == Failure(TilingFailed(Tiling.EmptyDeck))
        <==> (forall i :: 0 <= i < |rows| ==> RowRenderer(env)(rows[i]).Success?) && |out.deck| == 0
    ensures out.result != Failure(TilingFailed(Tiling.UnequalDpi))
    ensures out.result.Success? ==>
      var R := out.result.value;
      && R.layout == Tiling.MakeLayout(GridRows, GridCols, cardW, cardH, CardDpi)
      && |R.placements| == |out.deck|
      && (forall i :: 0 <= i < |out.deck| ==> R.placements[i] == Tiling.PlacementOf(R.layout, i))
      && |R.files| == Tiling.PageCount(|out.deck|, GridRows * GridCols)
      && (forall j :: 0 <= j < |R.files| ==> R.files[j] == PageName.PageFileName(j + 1))
  {
    var rendered := RenderRows(rows, RowRenderer(env));
    var deck := Deck(rendered.cards);
    if rendered.failure.Some? {
      var f := rendered.failure.value;
      return Outcome(deck, Failure(RowFailed(f.row, f.error)));
    }
    var raster := Tiling.SaveRaster(|deck|, GridRows, GridCols, cardW, cardH, CardDpi, CardDpi);
    match raster
    case Success(R) =>
      out := Outcome(deck, Success(R));
    case Failure(e) =>
      out := Outcome(deck, Failure(TilingFailed(e)));
  }
}

=== FILE: page_name.dfy ===
/** Page file names `f"page_{page_num:02d}.png"` of save_raster. */
module PageName {

  predicate IsDigit(c: char) {
    '0' <= c <= '9'
  }

  function DigitChar(d: nat): (c: char)
    requires d < 10
    ensures IsDigit(c) && c as int - '0' as int == d
  {
    ('0' as int + d) as char
  }

  /** Decimal notation of `n`, without leading zeros. */
  function Decimal(n: nat): (r: string)
    ensures |r| >= 1
    ensures forall i :: 0 <= i < |r| ==> IsDigit(r[i])
    ensures n < 10 <==> |r| == 1
  {
    if n < 10 then [DigitChar(n)] else Decimal(n / 10) + [DigitChar(n % 10)]
  }

  /** `{:02d}`: at least two digits, zero-padded on the left. */
  function Padded(n: nat): (r: string)
    ensures |r| >= 2 && forall i :: 0 <= i < |r| ==> IsDigit(r[i])
    ensures n < 100 <==> |r| == 2
    ensures n < 10 ==> r[0] == '0'
  {
    if n < 10 then "0" + Decimal(n) else Decimal(n)
  }

  /** The value of a digit string, read the usual way. */
  function Value(s: string): nat
    requires forall i :: 0 <= i < |s| ==> IsDigit(s[i])
  {
    if s == [] then 0
    else
      assert IsDigit(s[|s| - 1]);
      Value(s[..|s| - 1]) * 10 + (s[|s| - 1] as int - '0' as int)
  }

  lemma {:induction false} ValueDecimal(n: nat)
    ensures Value(Decimal(n)) == n
  {
    if n >= 10 {
      ValueDecimal(n / 10);
      var d := Decimal(n);
      assert d[..|d| - 1] == Decimal(n / 10);
    }
  }

  /** A leading zero does not change the value. */
  lemma {:induction false} ValueLeadingZero(s: string)
    requires forall i :: 0 <= i < |s| ==> IsDigit(s[i])
    ensures Value("0" + s) == Value(s)
  {
    if s != [] {
      var z := "0" + s;
      assert z[..|z| - 1] == "0" + s[..|s| - 1];
      ValueLeadingZero(s[..|s| - 1]);
    } else {
      assert ("0" + s)[..0] == [];
    }
  }

  /** The padded number reads back as the number. */
  lemma PaddedValue(n: nat)
    ensures Value(Padded(n)) == n
  {
    ValueDecimal(n);
    if n < 10 {
      ValueLeadingZero(Decimal(n));
    }
  }

  /** The file one page is saved under. */
  function PageFileName(n: nat): (r: string)
    ensures |r| == |Padded(n)| + 9
    ensures r[..5] == "page_" && r[|r| - 4..] == ".png"
    ensures r[5..|r| - 4] == Padded(n)
  {
    var r := "page_" + Padded(n) + ".png";
    assert r[5..|r| - 4] == Padded(n);
    r
  }

  /** Different pages never share a file name, so no page overwrites another. */
  lemma PageFileNameInjective(a: nat, b: nat)
    requires PageFileName(a) == PageFileName(b)
    ensures a == b
  {
    PaddedValue(a);
    PaddedValue(b);
  }

  /** Pages 1 to 99 get the two-digit names `page_01.png` ... `page_99.png`. */
  lemma TwoDigitPageName(n: nat)
    requires 1 <= n <= 99
    ensures |PageFileName(n)| == 11
    ensures PageFileName(n)[5] == DigitChar(n / 10) && PageFileName(n)[6] == DigitChar(n % 10)
  {
    var p := Padded(n);
    if n >= 10 {
      assert Decimal(n / 10) == [DigitChar(n / 10)];
    }
    assert p[0] == DigitChar(n / 10) && p[1] == DigitChar(n % 10);
  }
}

=== FILE: string_util.dfy ===
/** The filename sanitiser `safe_filename` of lib/string_util.py:
    strip surrounding whitespace, lower-case, turn spaces into `_`, then keep
    only alphanumeric characters and the caller's "special" characters. */
module StringUtil {

  /** The `special` argument's default value. */
  const DefaultSpecial: string := "._"

  /** Python's `str.isspace()`: exactly the characters `str.strip()` removes. */
  predicate IsSpace(c: char) {
    ('\t' <= c <= '\r') || ('\U{1C}' <= c <= '\U{1F}') || c == ' '
    || c == '\U{85}' || c == '\U{A0}' || c == '\U{1680}'
    || ('\U{2000}' <= c <= '\U{200A}') || c == '\U{2028}' || c == '\U{2029}'
    || c == '\U{202F}' || c == '\U{205F}' || c == '\U{3000}'
  }

  predicate IsUpper(c: char) {
    'A' <= c <= 'Z'
  }

  /** `str.isalnum()` restricted to ASCII. */
  predicate IsAlnum(c: char) {
    ('a' <= c <= 'z') || ('A' <= c <= 'Z') || ('0' <= c <= '9')
  }

  /** The characters the final filter keeps. */
  predicate Allowed(c: char, special: string) {
    IsAlnum(c) || c in special
  }

  /** `str.lower()` on one ASCII character; every other character is unchanged. */
  function LowerChar(c: char): char {
    if IsUpper(c) then (c as int + 32) as char else c
  }

  /** `str.lower()`: no upper-case letter is left, each one becomes its
      lower-case letter, and every other character stays where it is. */
  function Lower(s: string): (r: string)
    ensures |r| == |s|
    ensures forall i :: 0 <= i < |r| ==> !IsUpper(r[i])
    ensures forall i :: 0 <= i < |r| && !IsUpper(s[i]) ==> r[i] == s[i]
    ensures forall i :: 0 <= i < |r| && IsUpper(s[i]) ==> r[i] as int - s[i] as int == 'a' as int - 'A' as int
  {
    seq(|s|, i requires 0 <= i < |s| => LowerChar(s[i]))
  }

  /** `str.replace(" ", "_")`: no space is left, each one becomes `_`, and
      every other character stays where it is. */
  function ReplaceSpaces(s: string): (r: string)
    ensures |r| == |s|
    ensures forall i :: 0 <= i < |r| ==> r[i] != ' '
    ensures forall i :: 0 <= i < |r| ==> (s[i] == ' ' ==> r[i] == '_') && (s[i] != ' ' ==> r[i] == s[i])
  {
    seq(|s|, i requires 0 <= i < |s| => if s[i] == ' ' then '_' else s[i])
  }

  /** `str.lstrip()`: the longest suffix of `s` that does not start with whitespace. */
  function StripLeft(s: string): (r: string)
    ensures |r| <= |s| && r == s[|s| - |r|..]
    ensures forall k :: 0 <= k < |s| - |r| ==> IsSpace(s[k])
    ensures r == [] || !IsSpace(r[0])
  {
    if |s| > 0 && IsSpace(s[0]) then StripLeft(s[1..]) else s
  }

  /** `str.rstrip()`: the longest prefix of `s` that does not end with whitespace. */
  function StripRight(s: string): (r: string)
    ensures |r| <= |s| && r == s[..|r|]
    ensures forall k :: |r| <= k < |s| ==> IsSpace(s[k])
    ensures r == [] || !IsSpace(r[|r| - 1])
  {
    if |s| > 0 && IsSpace(s[|s| - 1]) then StripRight(s[..|s| - 1]) else s
  }

  /** `r` is the slice of `s` starting at `a`, and only whitespace lies
      around it. */
  predicate TrimmedAt(s: string, r: string, a: int) {
    && 0 <= a <= |s| - |r| && r == s[a..a + |r|]
    && (forall k :: 0 <= k < a ==> IsSpace(s[k]))
    && (forall k :: a + |r| <= k < |s| ==> IsSpace(s[k]))
  }

  /** `str.strip()`: a slice of `s` that neither starts nor ends with
      whitespace, with only whitespace cut off on either side. */
  function Strip(s: string): (r: string)
    ensures exists a :: TrimmedAt(s, r, a)
    ensures r == [] || (!IsSpace(r[0]) && !IsSpace(r[|r| - 1]))
  {
    var l := StripLeft(s);
    var r := StripRight(l);
    TrimmedSlice(s, l, r);
    StripEnds(s);
    r
  }

  /** A whitespace-free-bordered suffix `l` of `s`, then a prefix `r` of
      `l`, cut off whitespace only: `r` is a slice of `s` trimmed at `|s| - |l|`. */
  lemma TrimmedSlice(s: string, l: string, r: string)
    requires |l| <= |s| && l == s[|s| - |l|..] && forall k :: 0 <= k < |s| - |l| ==> IsSpace(s[k])
    requires |r| <= |l| && r == l[..|r|] && forall k :: |r| <= k < |l| ==> IsSpace(l[k])
    ensures TrimmedAt(s, r, |s| - |l|)
  {
    var a := |s| - |l|;
    forall k | a + |r| <= k < |s|
      ensures IsSpace(s[k])
    {
      assert s[k] == l[k - a];
    }
  }

  /** What stripping leaves neither starts nor ends with whitespace. */
  lemma StripEnds(s: string)
    ensures var r := StripRight(StripLeft(s)); r == [] || (!IsSpace(r[0]) && !IsSpace(r[|r| - 1]))
  {
    var l := StripLeft(s);
    var r := StripRight(l);
    if r != [] {
      assert r[0] == l[0];
    }
  }

  /** The string the filter runs over: `string.strip().lower().replace(" ", "_")`.
      It is no longer than `s` and holds no space and no upper-case letter. */
  function Prepared(s: string): (r: string)
    ensures |r| <= |s|
    ensures forall i :: 0 <= i < |r| ==> r[i] != ' ' && !IsUpper(r[i])
  {
    var l := Lower(Strip(s));
    var r := ReplaceSpaces(l);
    assert forall i :: 0 <= i < |r| ==> r[i] == '_' || r[i] == l[i];
    r
  }

  /** `a` can be obtained from `b` by deleting characters. */
  predicate IsSubsequence(a: string, b: string)
    decreases |b|
  {
    a == [] || (b != [] && if a[0] == b[0] then IsSubsequence(a[1..], b[1..]) else IsSubsequence(a, b[1..]))
  }

  /** The list comprehension `[c for c in s if c.isalnum() or c in special]`.
      Its result keeps every allowed character of `s`, as often as `s` has it,
      in order, and nothing else. */
  function KeepChars(s: string, special: string): (r: string)
    ensures |r| <= |s|
    ensures forall i :: 0 <= i < |r| ==> Allowed(r[i], special) && r[i] in s
  {
    if s == [] then []
    else
      var rest := KeepChars(s[1..], special);
      assert s == [s[0]] + s[1..];
      if Allowed(s[0], special) then [s[0]] + rest else rest
  }

  /** The filter keeps each allowed character as often as `s` has it, drops
      every other one, and preserves order. */
  lemma {:induction false} KeepCharsContents(s: string, special: string)
    ensures forall c :: Allowed(c, special) ==> multiset(KeepChars(s, special))[c] == multiset(s)[c]
    ensures forall c :: !Allowed(c, special) ==> multiset(KeepChars(s, special))[c] == 0
    ensures IsSubsequence(KeepChars(s, special), s)
  {
    if s != [] {
      KeepCharsContents(s[1..], special);
      assert s == [s[0]] + s[1..];
      assert multiset(s) == multiset{s[0]} + multiset(s[1..]);
    }
  }

  /** `safe_filename(string, special)`. */
  function SafeFilename(s: string, special: string): (r: string)
    ensures forall i :: 0 <= i < |r| ==> IsAlnum(r[i]) || r[i] in special
    ensures forall i :: 0 <= i < |r| ==> r[i] != ' ' && !IsUpper(r[i])
    ensures IsSubsequence(r, Prepared(s))
    ensures |r| <= |s|
  {
    var p := Prepared(s);
    var r := KeepChars(p, special);
    KeepCharsContents(p, special);
    assert forall i :: 0 <= i < |r| ==> r[i] != ' ' && !IsUpper(r[i]) by {
      forall i | 0 <= i < |r|
        ensures r[i] != ' ' && !IsUpper(r[i])
      {
        var j :| 0 <= j < |p| && p[j] == r[i];
      }
    }
    r
  }

  // ---------------------------------------------------------------------
  // Facts about the individual steps

  lemma LowerIdentity(s: string)
    requires forall i :: 0 <= i < |s| ==> !IsUpper(s[i])
    ensures Lower(s) == s
  {
  }

  lemma ReplaceSpacesIdentity(s: string)
    requires forall i :: 0 <= i < |s| ==> s[i] != ' '
    ensures ReplaceSpaces(s) == s
  {
  }

  lemma {:induction false} StripIdentity(s: string)
    requires forall i :: 0 <= i < |s| ==> !IsSpace(s[i])
    ensures Strip(s) == s
  {
    assert StripLeft(s) == s;
  }

  lemma {:induction false} KeepCharsIdentity(s: string, special: string)
    requires forall i :: 0 <= i < |s| ==> Allowed(s[i], special)
    ensures KeepChars(s, special) == s
  {
    if s != [] {
      KeepCharsIdentity(s[1..], special);
    }
  }

  lemma {:induction false} KeepCharsAppend(a: string, b: string, special: string)
    ensures KeepChars(a + b, special) == KeepChars(a, special) + KeepChars(b, special)
  {
    if a != [] {
      var ab := a + b;
      assert ab[0] == a[0] && ab[1..] == a[1..] + b;
      KeepCharsAppend(a[1..], b, special);
      var head: string := if Allowed(a[0], special) then [a[0]] else [];
      assert KeepChars(ab, special) == head + KeepChars(a[1..] + b, special);
      assert KeepChars(a, special) == head + KeepChars(a[1..], special);
    } else {
      assert a + b == b;
    }
  }

  lemma LowerAppend(a: string, b: string)
    ensures Lower(a + b) == Lower(a) + Lower(b)
  {
  }

  lemma ReplaceSpacesAppend(a: string, b: string)
    ensures ReplaceSpaces(a + b) == ReplaceSpaces(a) + ReplaceSpaces(b)
  {
  }

  lemma LowerIdempotent(s: string)
    ensures Lower(Lower(s)) == Lower(s)
  {
  }

  /** Lower-casing never creates or destroys whitespace, so it commutes with stripping. */
  lemma {:induction false} StripLeftLower(s: string)
    ensures StripLeft(Lower(s)) == Lower(StripLeft(s))
  {
    if |s| > 0 {
      var l := Lower(s);
      assert IsSpace(l[0]) <==> IsSpace(s[0]);
      if IsSpace(s[0]) {
        assert l[1..] == Lower(s[1..]);
        StripLeftLower(s[1..]);
        assert StripLeft(l) == StripLeft(l[1..]);
      } else {
        assert StripLeft(l) == l;
      }
    }
  }

  lemma {:induction false} StripRightLower(s: string)
    ensures StripRight(Lower(s)) == Lower(StripRight(s))
  {
    if |s| > 0 {
      var l := Lower(s);
      assert IsSpace(l[|s| - 1]) <==> IsSpace(s[|s| - 1]);
      if IsSpace(s[|s| - 1]) {
        assert l[..|s| - 1] == Lower(s[..|s| - 1]);
        StripRightLower(s[..|s| - 1]);
        assert StripRight(l) == StripRight(l[..|s| - 1]);
      } else {
        assert StripRight(l) == l;
      }
    }
  }

  // ---------------------------------------------------------------------
  // Properties of safe_filename

  /** The output is already in normal form: for any `special` free of
      whitespace, sanitising twice is sanitising once. */
  lemma Idempotent(s: string, special: string)
    requires forall i :: 0 <= i < |special| ==> !IsSpace(special[i])
    ensures SafeFilename(SafeFilename(s, special), special) == SafeFilename(s, special)
  {
    var r := SafeFilename(s, special);
    forall i | 0 <= i < |r|
      ensures !IsSpace(r[i])
    {
      if r[i] in special {
        var j :| 0 <= j < |special| && special[j] == r[i];
      }
    }
    StripIdentity(r);
    LowerIdentity(r);
    ReplaceSpacesIdentity(r);
    KeepCharsIdentity(r, special);
  }

  /** Idempotence for the default special characters `"._"`. */
  lemma IdempotentDefault(s: string)
    ensures SafeFilename(SafeFilename(s, DefaultSpecial), DefaultSpecial) == SafeFilename(s, DefaultSpecial)
  {
    assert forall i :: 0 <= i < |DefaultSpecial| ==> !IsSpace(DefaultSpecial[i]) by {
      assert DefaultSpecial == ['.', '_'];
    }
    Idempotent(s, DefaultSpecial);
  }

  /** The sanitiser ignores ASCII case. */
  lemma CaseInsensitive(s: string, special: string)
    ensures SafeFilename(Lower(s), special) == SafeFilename(s, special)
  {
    StripLeftLower(s);
    StripRightLower(StripLeft(s));
    LowerIdempotent(Strip(s));
  }

  /** A stripped, non-empty word starts and ends with a non-space character. */
  lemma StrippedEnds(a: string)
    requires a != [] && Strip(a) == a
    ensures !IsSpace(a[0]) && !IsSpace(a[|a| - 1])
  {
    var l := StripLeft(a);
    assert |StripRight(l)| <= |l| <= |a|;
    assert l == a;
  }

  /** An interior space between two stripped words survives as one underscore
      whenever `_` is special (as it is by default). */
  lemma {:induction false} InteriorSpace(a: string, b: string, special: string)
    requires a != [] && b != [] && Strip(a) == a && Strip(b) == b
    requires '_' in special
    ensures SafeFilename(a + " " + b, special)
         == SafeFilename(a, special) + "_" + SafeFilename(b, special)
  {
    StrippedEnds(a);
    StrippedEnds(b);
    var s := a + " " + b;
    assert StripLeft(s) == s;
    assert StripRight(s) == s by {
      assert s[|s| - 1] == b[|b| - 1];
    }
    LowerAppend(a + " ", b);
    LowerAppend(a, " ");
    ReplaceSpacesAppend(Lower(a) + Lower(" "), Lower(b));
    ReplaceSpacesAppend(Lower(a), Lower(" "));
    assert ReplaceSpaces(Lower(" ")) == "_";
    KeepCharsAppend(ReplaceSpaces(Lower(a)) + "_", ReplaceSpaces(Lower(b)), special);
    KeepCharsAppend(ReplaceSpaces(Lower(a)), "_", special);
    assert KeepChars("_", special) == "_" by {
      assert "_"[1..] == [];
    }
  }

  /** The documented example: `safe_filename("My Card!") == "my_card"`. */
  lemma MyCardExample()
    ensures SafeFilename("My Card!", DefaultSpecial) == "my_card"
  {
    MyCardPrepared();
    MyCardFiltered();
  }

  lemma MyCardPrepared()
    ensures Prepared("My Card!") == "my_card" + "!"
  {
    MyCardStripped();
    MyCardLowered();
    MyCardUnderscored();
  }

  lemma MyCardUnderscored()
    ensures ReplaceSpaces("my card!") == "my_card!"
  {
    var r := ReplaceSpaces("my card!");
    assert r[2] == '_';
  }

  lemma MyCardLowered()
    ensures Lower("My Card!") == "my card!"
  {
    var l := Lower("My Card!");
    assert IsUpper('M') && IsUpper('C');
    assert forall i :: 0 <= i < 8 && i != 0 && i != 3 ==> !IsUpper("My Card!"[i]);
    assert l[0] == 'm' && l[3] == 'c';
  }

  lemma MyCardStripped()
    ensures Strip("My Card!") == "My Card!"
  {
    assert !IsSpace('M') && !IsSpace('!');
    assert StripLeft("My Card!") == "My Card!";
    assert StripRight("My Card!") == "My Card!";
  }

  lemma MyCardFiltered()
    ensures KeepChars("my_card" + "!", DefaultSpecial) == "my_card"
  {
    KeepCharsAppend("my_card", "!", DefaultSpecial);
    OnlyAllowedKept();
    NothingKept();
  }

  lemma OnlyAllowedKept()
    ensures KeepChars("my_card", DefaultSpecial) == "my_card"
  {
    KeepCharsIdentity("my_card", DefaultSpecial);
  }

  lemma NothingKept()
    ensures KeepChars("!", DefaultSpecial) == ""
  {
    assert "!"[1..] == [];
  }
}

=== FILE: tiling.dfy ===
/** The page tiler `save_raster` of fluxx_maker.py: cards of one size are
    laid out `rows` x `cols` per letter-size page, row-major, page after page.
    Image reading, pasting and saving are abstracted: a paste is recorded as
    a `Placement`, a saved page as its file name. */
module Tiling {
  import opened Wrappers
  import PageName

  /** Why save_raster fails before any page is written. */
  datatype TileError =
    | EmptyDeck   // `images[0]` on an empty directory listing
    | UnequalDpi  // `assert v_dpi == h_dpi`

  /** The page geometry derived from the first card image. */
  datatype Layout = Layout(
    rows: nat, cols: nat,
    cardW: nat, cardH: nat,
    dpi: nat,
    pageW: int, pageH: int,
    hSpace: int, vSpace: int)

  /** Card number `card` of the listing, pasted on page `page` at `(x, y)`. */
  datatype Placement = Placement(page: nat, x: int, y: int, card: nat)

  /** Everything a successful run of save_raster does: the pastes, in order,
      and the page files, in the order they are saved. */
  datatype Raster = Raster(layout: Layout, placements: seq<Placement>, files: seq<string>)

  /** `int(8.5 * dpi)` for an integral DPI: the half pixel is truncated. */
  function PageWidth(dpi: nat): (w: nat)
    ensures 2 * w <= 17 * dpi < 2 * w + 2
  {
    (17 * dpi) / 2
  }

  /** `(page - count * size) // (count + 1)`: the largest gutter such that
      `count + 1` gutters fit beside `count` cards. The divisor is positive, so
      Dafny's division is Python's floor division here, also when the cards
      are wider than the page and the gutter is negative. */
  function Gutter(page: int, count: nat, size: nat): (g: int)
    ensures (count + 1) * g <= page - count * size < (count + 1) * (g + 1)
  {
    (page - count * size) / (count + 1)
  }

  /** The letter-size page at `dpi` and the floor-divided gutters around a
      `rows` x `cols` grid of `cardW` x `cardH` cards. */
  function MakeLayout(rows: nat, cols: nat, cardW: nat, cardH: nat, dpi: nat): (L: Layout)
    ensures L.rows == rows && L.cols == cols && L.cardW == cardW && L.cardH == cardH && L.dpi == dpi
    ensures 2 * L.pageW <= 17 * dpi < 2 * L.pageW + 2 && L.pageH == 11 * dpi
    ensures (cols + 1) * L.hSpace <= L.pageW - cols * cardW < (cols + 1) * (L.hSpace + 1)
    ensures (rows + 1) * L.vSpace <= L.pageH - rows * cardH < (rows + 1) * (L.vSpace + 1)
  {
    var pageW := PageWidth(dpi);
    var pageH := 11 * dpi;
    Layout(rows, cols, cardW, cardH, dpi, pageW, pageH,
           Gutter(pageW, cols, cardW), Gutter(pageH, rows, cardH))
  }

  /** A grid the tiler can fill: with zero rows or columns save_raster never
      places a card and loops forever. */
  predicate ValidGrid(L: Layout) {
    L.rows >= 1 && L.cols >= 1
  }

  function PerPage(L: Layout): nat {
    L.rows * L.cols
  }

  /** `ceil(n / perPage)`. */
  function PageCount(n: nat, perPage: nat): nat
    requires perPage >= 1
  {
    (n + perPage - 1) / perPage
  }

  /** Where card `i` lands: page `i / perPage + 1`, cell `i % perPage` taken
      row-major, each cell one gutter plus one card further than the last. */
  function PlacementOf(L: Layout, i: nat): Placement
    requires ValidGrid(L)
  {
    var cell := i % PerPage(L);
    Placement(i / PerPage(L) + 1,
              L.hSpace + (cell % L.cols) * (L.hSpace + L.cardW),
              L.vSpace + (cell / L.cols) * (L.vSpace + L.cardH),
              i)
  }

  // ---------------------------------------------------------------------
  // Arithmetic helpers

  lemma DivModUnique(i: int, d: int, q: int, k: int)
    requires d > 0 && 0 <= k < d && i == q * d + k
    ensures i / d == q && i % d == k
  {
    var m := q - i / d;
    assert m * d == i % d - k;
    if m >= 1 {
      MulMono(1, m, d);
    } else if m <= -1 {
      MulMono(m, -1, d);
    }
  }

  lemma {:induction false} MulMono(a: int, b: int, m: int)
    requires a <= b && m >= 0
    ensures a * m <= b * m
  {
  }

  /** The cell in row `r`, column `c` of page `p + 1` holds card `p * perPage + r * cols + c`. */
  lemma PlacementOfCell(L: Layout, p: nat, r: nat, c: nat)
    requires ValidGrid(L) && r < L.rows && c < L.cols
    ensures PlacementOf(L, p * PerPage(L) + r * L.cols + c)
         == Placement(p + 1, L.hSpace + c * (L.hSpace + L.cardW), L.vSpace + r * (L.vSpace + L.cardH),
                      p * PerPage(L) + r * L.cols + c)
  {
    var k := r * L.cols + c;
    MulMono(r, L.rows - 1, L.cols);
    assert k < PerPage(L);
    DivModUnique(p * PerPage(L) + k, PerPage(L), p, k);
    DivModUnique(k, L.cols, r, c);
  }

  /** `p` pages are the fewest that hold `n` cards. */
  lemma PageCountUnique(n: nat, per: nat, p: nat)
    requires per >= 1
    requires n <= p * per
    requires p == 0 || (p - 1) * per < n
    ensures PageCount(n, per) == p
  {
    if p == 0 {
      DivModUnique(n + per - 1, per, 0, per - 1);
    } else {
      DivModUnique(n + per - 1, per, p, n + per - 1 - p * per);
    }
  }

  // ---------------------------------------------------------------------
  // The paste loop

  function Min(a: int, b: int): int {
    if a < b then a else b
  }

  /** The innermost loop of save_raster: one row of the grid, starting at
      card `index`, pasting cards left to right at `x` steps of one gutter
      plus one card, and skipping the cells after the last card. */
  method PasteRow(L: Layout, n: nat, p: nat, r: nat, y: int, index: nat) returns (row: seq<Placement>)
    requires ValidGrid(L) && r < L.rows && index <= n
    requires index < n ==> index == p * PerPage(L) + r * L.cols
    requires y == L.vSpace + r * (L.vSpace + L.cardH)
    ensures |row| == Min(n - index, L.cols)
    ensures forall k :: 0 <= k < |row| ==> row[k] == PlacementOf(L, index + k)
  {
    row := [];
    var next := index;
    var x := L.hSpace;
    var c := 0;
    while c < L.cols
      invariant c <= L.cols
      invariant next == index + |row| && |row| == Min(n - index, c)
      invariant next < n ==> x == L.hSpace + c * (L.hSpace + L.cardW)
      invariant forall k :: 0 <= k < |row| ==> row[k] == PlacementOf(L, index + k)
    {
      if next < n {
        assert |row| == c && next == p * PerPage(L) + r * L.cols + c;
        PlacementOfCell(L, p, r, c);
        row := row + [Placement(p + 1, x, y, next)];
        next := next + 1;
        x := x + L.hSpace + L.cardW;
        assert x == L.hSpace + (c + 1) * (L.hSpace + L.cardW);
      }
      c := c + 1;
    }
  }

  /** One pass of save_raster's outer loop: a fresh page `p + 1` whose rows
      are filled top to bottom, `y` stepping one gutter plus one card. */
  method PastePage(L: Layout, n: nat, p: nat, index: nat) returns (page: seq<Placement>)
    requires ValidGrid(L) && index < n && index == p * PerPage(L)
    ensures |page| == Min(n - index, PerPage(L))
    ensures forall k :: 0 <= k < |page| ==> page[k] == PlacementOf(L, index + k)
  {
    page := [];
    var y := L.vSpace;
    var r := 0;
    while r < L.rows
      invariant r <= L.rows
      invariant y == L.vSpace + r * (L.vSpace + L.cardH)
      invariant |page| == Min(n - index, r * L.cols)
      invariant forall k :: 0 <= k < |page| ==> page[k] == PlacementOf(L, index + k)
    {
      var row := PasteRow(L, n, p, r, y, index + |page|);
      page := page + row;
      assert r * L.cols + L.cols == (r + 1) * L.cols;
      y := y + L.vSpace + L.cardH;
      r := r + 1;
    }
  }

  /** The loops of save_raster: a page per pass of the outer loop until the
      listing of `n` cards runs out. The pastes are exactly the closed-form
      placements of cards `0 .. n - 1` in listing order, and the pages saved
      are `1 .. ceil(n / perPage)`, the last one possibly partly filled. */
  method PastePages(L: Layout, n: nat) returns (placements: seq<Placement>, pages: seq<nat>)
    requires ValidGrid(L)
    ensures |placements| == n
    ensures forall i :: 0 <= i < n ==> placements[i] == PlacementOf(L, i)
    ensures |pages| == PageCount(n, PerPage(L))
    ensures forall j :: 0 <= j < |pages| ==> pages[j] == j + 1
  {
    var per := PerPage(L);
    placements := [];
    pages := [];
    var pageNum := 0;
    while |placements| < n
      invariant |placements| <= n && |placements| <= pageNum * per
      invariant pageNum == 0 || (pageNum - 1) * per < |placements|
      invariant |placements| < n ==> |placements| == pageNum * per
      invariant forall i :: 0 <= i < |placements| ==> placements[i] == PlacementOf(L, i)
      invariant |pages| == pageNum
      invariant forall j :: 0 <= j < pageNum ==> pages[j] == j + 1
    {
      var page := PastePage(L, n, pageNum, |placements|);
      placements := placements + page;
      pageNum := pageNum + 1;
      pages := pages + [pageNum];
    }
    PageCountUnique(n, per, pageNum);
  }

  /** save_raster over a listing of `n` card images whose first image is
      `cardW` x `cardH` pixels at `(vDpi, hDpi)` dots per inch. */
  method SaveRaster(n: nat, rows: nat, cols: nat, cardW: nat, cardH: nat, vDpi: nat, hDpi: nat)
    returns (result: Result<Raster, TileError>)
    requires rows >= 1 && cols >= 1
    ensures n == 0 <==> result == Failure(EmptyDeck)
    ensures result == Failure(UnequalDpi) <==> n > 0 && vDpi != hDpi
    ensures result.Success? ==>
      var R := result.value;
      R.layout == MakeLayout(rows, cols, cardW, cardH, vDpi)
      && |R.placements| == n
      && (forall i :: 0 <= i < n ==> R.placements[i] == PlacementOf(R.layout, i))
      && |R.files| == PageCount(n, rows * cols)
      && (forall j :: 0 <= j < |R.files| ==> R.files[j] == PageName.PageFileName(j + 1))
  {
    if n == 0 {
      return Failure(EmptyDeck);
    }
    if vDpi != hDpi {
      return Failure(UnequalDpi);
    }
    var L := MakeLayout(rows, cols, cardW, cardH, vDpi);
    var placements, pages := PastePages(L, n);
    var files := seq(|pages|, j requires 0 <= j < |pages| => PageName.PageFileName(pages[j]));
    return Success(Raster(L, placements, files));
  }

  // ---------------------------------------------------------------------
  // Properties of the layout

  /** When `cols` cards fit across the page, the floor-divided gutter is
      non-negative and cards plus `cols + 1` gutters still fit; likewise
      down the page. */
  lemma GuttersFit(rows: nat, cols: nat, cardW: nat, cardH: nat, dpi: nat)
    ensures var L := MakeLayout(rows, cols, cardW, cardH, dpi);
      cols * cardW <= L.pageW ==> 0 <= L.hSpace && cols * cardW + (cols + 1) * L.hSpace <= L.pageW
    ensures var L := MakeLayout(rows, cols, cardW, cardH, dpi);
      rows * cardH <= L.pageH ==> 0 <= L.vSpace && rows * cardH + (rows + 1) * L.vSpace <= L.pageH
  {
    var L := MakeLayout(rows, cols, cardW, cardH, dpi);
    if cols * cardW <= L.pageW {
      GutterFits(L.pageW, cols, cardW);
    }
    if rows * cardH <= L.pageH {
      GutterFits(L.pageH, rows, cardH);
    }
  }

  /** Along one axis: cards that fit leave a non-negative gutter. */
  lemma GutterFits(page: int, count: nat, size: nat)
    requires count * size <= page
    ensures 0 <= Gutter(page, count, size) && count * size + (count + 1) * Gutter(page, count, size) <= page
  {
    var g := Gutter(page, count, size);
    if g < 0 {
      MulMono(g + 1, 0, count + 1);
    }
  }

  predicate Fits(L: Layout) {
    L.cols * L.cardW <= L.pageW && L.rows * L.cardH <= L.pageH
  }

  /** In a layout that fits, every card lies wholly on its page. */
  lemma PlacementOnPage(rows: nat, cols: nat, cardW: nat, cardH: nat, dpi: nat, i: nat)
    requires rows >= 1 && cols >= 1
    requires Fits(MakeLayout(rows, cols, cardW, cardH, dpi))
    ensures var L := MakeLayout(rows, cols, cardW, cardH, dpi);
      var P := PlacementOf(L, i);
      0 <= P.x && P.x + cardW <= L.pageW && 0 <= P.y && P.y + cardH <= L.pageH
  {
    var L := MakeLayout(rows, cols, cardW, cardH, dpi);
    GuttersFit(rows, cols, cardW, cardH, dpi);
    var cell := i % PerPage(L);
    var r, c := cell / cols, cell % cols;
    CellRow(cell, rows, cols);
    AxisFits(L.hSpace, cardW, cols, c, L.pageW);
    AxisFits(L.vSpace, cardH, rows, r, L.pageH);
  }

  /** A cell of a `rows` x `cols` page lies in one of its rows. */
  lemma CellRow(cell: nat, rows: nat, cols: nat)
    requires cols >= 1 && cell < rows * cols
    ensures cell / cols < rows
  {
    if cell / cols >= rows {
      MulMono(rows, cell / cols, cols);
    }
  }

  /** Along one axis: the card in slot `k` of `count` lies within the page. */
  lemma AxisFits(g: int, size: nat, count: nat, k: nat, page: int)
    requires k < count && 0 <= g && count * size + (count + 1) * g <= page
    ensures 0 <= g + k * (g + size) && g + k * (g + size) + size <= page
  {
    MulMono(k, count - 1, g + size);
    assert (count - 1) * (g + size) + size == count * size + count * g - g;
  }

  /** Distinct cards on the same page never overlap when the gutters are
      non-negative: they sit in different columns or different rows. */
  lemma PlacementsDisjoint(L: Layout, i: nat, j: nat)
    requires ValidGrid(L) && L.hSpace >= 0 && L.vSpace >= 0
    requires i != j && PlacementOf(L, i).page == PlacementOf(L, j).page
    ensures var Pi, Pj := PlacementOf(L, i), PlacementOf(L, j);
      Pi.x + L.cardW <= Pj.x || Pj.x + L.cardW <= Pi.x
      || Pi.y + L.cardH <= Pj.y || Pj.y + L.cardH <= Pi.y
  {
    var per := PerPage(L);
    var ci, cj := i % per, j % per;
    SameCellSameCard(i, j, per);
    var ri, rj, ki, kj := ci / L.cols, cj / L.cols, ci % L.cols, cj % L.cols;
    SameCellSameCard(ci, cj, L.cols);
    if ki < kj {
      SlotsApart(L.hSpace, L.cardW, ki, kj);
    } else if kj < ki {
      SlotsApart(L.hSpace, L.cardW, kj, ki);
    } else if ri < rj {
      SlotsApart(L.vSpace, L.cardH, ri, rj);
    } else {
      SlotsApart(L.vSpace, L.cardH, rj, ri);
    }
  }

  /** Two numbers with equal quotient and remainder are equal. */
  lemma SameCellSameCard(i: nat, j: nat, d: nat)
    requires d > 0 && i != j
    ensures i / d != j / d || i % d != j % d
  {
  }

  /** Along one axis, slot `a` ends before slot `b > a` begins. */
  lemma SlotsApart(g: int, size: nat, a: nat, b: nat)
    requires g >= 0 && a < b
    ensures g + a * (g + size) + size <= g + b * (g + size)
  {
    MulMono(a + 1, b, g + size);
    assert (a + 1) * (g + size) == a * (g + size) + g + size;
  }

  /** Every saved page receives a card: the first cell of page `p` holds card
      `(p - 1) * perPage`, which exists for every page up to `ceil(n / perPage)`. */
  lemma EveryPageUsed(L: Layout, n: nat, p: nat)
    requires ValidGrid(L)
    requires 1 <= p <= PageCount(n, PerPage(L))
    ensures (p - 1) * PerPage(L) < n
    ensures PlacementOf(L, (p - 1) * PerPage(L)).page == p
  {
    var per := PerPage(L);
    if (p - 1) * per >= n {
      var q := PageCount(n, per);
      assert (n + per - 1) == q * per + (n + per - 1) % per;
      MulMono(p, q, per);
      assert false;
    }
    PlacementOfCell(L, p - 1, 0, 0);
  }

  /** Ten cards, three by three per page, fill two pages, the second with
      one card. */
  lemma TenCardsTwoPages(L: Layout)
    requires L.rows == 3 && L.cols == 3
    ensures PageCount(10, PerPage(L)) == 2
    ensures PlacementOf(L, 8).page == 1 && PlacementOf(L, 9).page == 2
  {
  }
}

=== FILE: token_split.dfy ===
/** `description.split("\\n")` in fluxx_maker.py: splitting on the literal
    two-character token backslash, `n` (not on a line break). */
module TokenSplit {

  /** The separator: a backslash followed by the letter `n`. */
  const Token: string := ['\\', 'n']

  /** The token starts at position `i` of `s`. */
  predicate TokenAt(s: string, i: int) {
    0 <= i && i + 1 < |s| && s[i] == '\\' && s[i + 1] == 'n'
  }

  /** `s` contains no occurrence of the token. */
  predicate TokenFree(s: string) {
    forall i :: 0 <= i < |s| ==> !TokenAt(s, i)
  }

  /** Adds `c` to the front of the first piece. */
  function ConsFirst(c: char, pieces: seq<string>): (r: seq<string>)
    requires |pieces| >= 1
    ensures |r| == |pieces| && r[0] == [c] + pieces[0] && r[1..] == pieces[1..]
  {
    [[c] + pieces[0]] + pieces[1..]
  }

  /** Python's `str.split` with the token as separator: scans left to right
      and cuts at every occurrence. Always at least one piece; no piece holds
      the token; the first piece is a prefix of `s`. */
  function Split(s: string): (r: seq<string>)
    ensures |r| >= 1
    ensures r[0] <= s
    ensures forall k :: 0 <= k < |r| ==> TokenFree(r[k])
  {
    if |s| < 2 then [s]
    else if TokenAt(s, 0) then [""] + Split(s[2..])
    else
      var rest := Split(s[1..]);
      var r := ConsFirst(s[0], rest);
      assert TokenFree(r[0]) by {
        forall i | 0 <= i < |r[0]|
          ensures !TokenAt(r[0], i)
        {
          if i == 0 && |r[0]| > 1 {
            assert r[0][1] == rest[0][0] == s[1];
          } else if i > 0 {
            assert TokenFree(rest[0]);
            assert !TokenAt(rest[0], i - 1);
          }
        }
      }
      assert forall k :: 1 <= k < |r| ==> r[k] == rest[k];
      r
  }

  /** `Token.join(pieces)`, the inverse of `Split`. */
  function Join(pieces: seq<string>): string
    requires |pieces| >= 1
  {
    if |pieces| == 1 then pieces[0] else pieces[0] + Token + Join(pieces[1..])
  }

  lemma {:induction false} JoinConsFirst(c: char, pieces: seq<string>)
    requires |pieces| >= 1
    ensures Join(ConsFirst(c, pieces)) == [c] + Join(pieces)
  {
    var r := ConsFirst(c, pieces);
    if |pieces| > 1 {
      assert r[1..] == pieces[1..];
    }
  }

  /** Joining the pieces back with the token gives the original description. */
  lemma {:induction false} JoinSplit(s: string)
    ensures Join(Split(s)) == s
    decreases |s|
  {
    if |s| < 2 {
    } else if TokenAt(s, 0) {
      JoinSplit(s[2..]);
      var r := Split(s);
      assert r == [""] + Split(s[2..]);
      assert r[1..] == Split(s[2..]);
      assert s == Token + s[2..];
    } else {
      JoinSplit(s[1..]);
      JoinConsFirst(s[0], Split(s[1..]));
      assert s == [s[0]] + s[1..];
    }
  }

  /** A token-free piece followed by the token is cut off as one piece. */
  lemma {:induction false} SplitPieceThenToken(p: string, t: string)
    requires TokenFree(p)
    ensures Split(p + Token + t) == [p] + Split(t)
    decreases |p|
  {
    var s := p + Token + t;
    if p == [] {
      assert s == Token + t;
      assert TokenAt(s, 0);
      assert s[2..] == t;
    } else {
      assert !TokenAt(p, 0);
      assert !TokenAt(s, 0) by {
        if |p| == 1 {
          assert s[1] == '\\';
        } else {
          assert s[1] == p[1];
        }
      }
      assert TokenFree(p[1..]) by {
        forall i | 0 <= i < |p[1..]|
          ensures !TokenAt(p[1..], i)
        {
          assert !TokenAt(p, i + 1);
        }
      }
      SplitPieceThenToken(p[1..], t);
      assert s[1..] == p[1..] + Token + t;
      assert p == [p[0]] + p[1..];
    }
  }

  /** A token-free string is a single piece. */
  lemma {:induction false} SplitTokenFree(p: string)
    requires TokenFree(p)
    ensures Split(p) == [p]
    decreases |p|
  {
    if |p| >= 2 {
      assert !TokenAt(p, 0);
      assert TokenFree(p[1..]) by {
        forall i | 0 <= i < |p[1..]|
          ensures !TokenAt(p[1..], i)
        {
          assert !TokenAt(p, i + 1);
        }
      }
      SplitTokenFree(p[1..]);
      assert p == [p[0]] + p[1..];
    }
  }

  /** Splitting a join of token-free pieces gives the pieces back. */
  lemma {:induction false} SplitJoin(pieces: seq<string>)
    requires |pieces| >= 1
    requires forall k :: 0 <= k < |pieces| ==> TokenFree(pieces[k])
    ensures Split(Join(pieces)) == pieces
    decreases |pieces|
  {
    if |pieces| == 1 {
      SplitTokenFree(pieces[0]);
    } else {
      SplitJoin(pieces[1..]);
      SplitPieceThenToken(pieces[0], Join(pieces[1..]));
      assert pieces == [pieces[0]] + pieces[1..];
    }
  }
}

=== FILE: wrappers.dfy ===
/** Failure-compatible wrappers used for the program's assertion failures
    and optional lookups. */
module Wrappers {

  /** An optional value, for lookups that may find nothing. */
  datatype Option<+T> = None | Some(value: T)

  /** A value or an error, usable with `:-`. */
  datatype Result<+R, +E> = Success(value: R) | Failure(error: E) {

    predicate IsFailure() {
      Failure?
    }

    function PropagateFailure<U>(): Result<U, E>
      requires Failure?
    {
      Failure(error)
    }

    function Extract(): R
      requires Success?
    {
      value
    }
  }
}
